=== FILE: README.md ===
# DomainModel in Dafny

A model of `DomainModel` and `is_key` from `domain_model.py`. This small
library persists flat, one-level-nested Python dicts ("entities", each with an
`entity_id`) into Redis. Each topic gets:

- an index set `{topic}_ids` of entity ids;
- one hash `{topic}_entity:{id}` per entity;
- one extra key `{topic}_{field}:{id}` for every list, set or dict field. The entity hash holds that key's name in place of the value.

On the way back, `retrieve` takes any hash string that contains both `_` and `:`
to be such a key name. It looks the key up and converts it according to the key's Redis type.

The project has these modules:

- `Store` (`store.dfy`): Redis as a map from key to `RString | RList | RSet | RHash`, with the commands the class issues as pure functions over it. The writing commands SADD, SREM, HSET, HMSET and RPUSH return `Result<Store>`; DEL returns the new `Store` (it cannot fail); TYPE returns the type name; SMEMBERS, SISMEMBER, HGETALL and LRANGE 0 -1 return a `Result` of what they read. EXISTS on the index set is the membership test `IndexKey(topic) in st` inside `Exists`. Redis never keeps an empty collection; `WellFormed` says so, and every writing command preserves it.
- `Keys` (`keys.dfy`): the three key templates and `IsKey`, with their injectivity and disjointness.
- `DomainModel` (`domain_model.dfy`): the record type and the five operations. Each operation issues the commands in the class's order and stops at the first error.
  - A Python dict is a `Record`: a map plus its insertion order. The order decides which command runs first, and so which error surfaces.
  - `Retrieve` walks a Redis set, whose iteration order is unspecified. When some entity cannot be read, the model reports the set of errors that could surface.
- `Layout` (`layout.dfy`): reference definitions of what should be in the store after a write: the entity hash's strings and each composite key's contents. It also holds the read-back lemmas.
- `CreateProperties`, `UpdateProperties`, `DeleteProperties` (`create_properties.dfy`, `update_properties.dfy`, `delete_properties.dfy`): each operation's effect against the reference definitions, round trips, and the behaviour of `exists`.
- `Scenarios` (`scenarios.dfy`): concrete small stores.

Two calls in the source do not do what their surrounding code evidently intends; see "## Findings".

- For `delete`, both versions are modelled: `DeleteAsWritten` as written and `Delete` corrected.
- For `update`, `UpdateWith` takes a flag: `UpdateAsWritten` is the as-written version and `Update` the corrected one.

The lemmas about round trips use the corrected members.

Where the code and a plain reading of the class's design disagree, the model follows the code.

- `retrieve` does not read back a key-shaped string of any other type as a scalar. Its fallback `hget(v)` lacks the field argument and raises (`HGetMissingField`).
- `update` does not touch the index set.

## Model

| member | source | states |
|---|---|---|
| `Keys.IsKey` | domain_model.py:1-8 | `is_key`: a value is looked up as a key exactly when it contains both `_` and `:` |
| `Keys.IndexKey` | domain_model.py:33 | the index set's name `{topic}_ids` is four characters longer than the topic and passes `is_key` exactly when the topic contains `:` |
| `Keys.EntityKey` | domain_model.py:37 | the entity hash's name `{topic}_entity:{id}` is eight characters longer than topic and id together and always passes `is_key` |
| `Keys.CompositeKey` | domain_model.py:36 | a field's own key `{topic}_{field}:{id}` is two characters longer than topic, field and id together and always passes `is_key` |
| `Keys.CompositeKeyIsKey` | domain_model.py:36-44 | every composite key name `{topic}_{field}:{id}` passes `is_key`, for any topic, field and id |
| `Keys.CompositeKeyInjective` | domain_model.py:36 | two fields of one entity share a composite key only if they are the same field |
| `Keys.CompositeKeyIsEntityKey` | domain_model.py:36-37 | a composite key coincides with the entity hash's key exactly when the field is named `entity` |
| `Keys.IndexKeyIsNoCompositeKey` | domain_model.py:33-37 | the index set's key is never an entity hash or composite key of the same topic, so field writes never reach the index |
| `Store.TypeName` | domain_model.py:62 | TYPE reports `none` exactly for an absent key, and `list`/`set`/`hash` exactly for keys holding those kinds |
| `Store.Del` | domain_model.py:84 | DEL removes the key and leaves every other key as it was |
| `Store.SAdd` | domain_model.py:33 | SADD succeeds exactly for a non-empty member set on an absent key or a set; the key then holds exactly the union of the old members and the new ones, and no other key changes |
| `Store.SRem` | domain_model.py:106 | SREM fails only on a non-set; the key keeps the remaining members, disappears when none remain, and no other key changes |
| `Store.SMembers` | domain_model.py:58 | SMEMBERS gives the empty set for an absent key, the members of a set, and WRONGTYPE otherwise |
| `Store.SIsMember` | domain_model.py:121 | SISMEMBER is false on an absent key, membership on a set, and WRONGTYPE otherwise |
| `Store.HSet` | domain_model.py:37 | HSET on an absent key or a hash sets the one field, keeps the others, and changes no other key |
| `Store.HMSet` | domain_model.py:46 | HMSET refuses an empty mapping; on an absent key or a hash it merges the mapping over the fields; no other key changes |
| `Store.HGetAll` | domain_model.py:59 | HGETALL gives the empty map for an absent key, the fields of a hash, and WRONGTYPE otherwise |
| `Store.RPush` | domain_model.py:38 | RPUSH refuses no values; on an absent key or a list the result is the old items followed by the new ones; no other key changes |
| `Store.LRangeAll` | domain_model.py:64 | LRANGE 0 -1 gives the empty list for an absent key, the whole list, and WRONGTYPE otherwise |
| `DomainModel.EntityIdOf` | domain_model.py:33 | a record without `entity_id` raises the KeyError; a list, set or dict id is refused as a command argument; otherwise the id is the string |
| `DomainModel.CreateField` | domain_model.py:35-48 | one field write of create deletes nothing and touches only the entity hash and that field's composite key |
| `DomainModel.CreateFields` | domain_model.py:34-48 | create's loop deletes nothing and touches only the entity hash and the composite keys of the record's list, set and dict fields |
| `DomainModel.Create` | domain_model.py:26-48 | without `entity_id` create raises; when the index key holds something other than a set, SADD raises WRONGTYPE; on success the index set gains the id and keeps its old members; no key is deleted; nothing beyond index, entity hash and composite keys changes |
| `DomainModel.IndexKeyUntouched` | domain_model.py:33-45 | no write to the entity hash or to a composite key lands on the index set |
| `DomainModel.Resolve` | domain_model.py:60-70 | a string that is not key-shaped comes back as itself; a key-shaped one reads back as a list, set or dict exactly when its key holds one; anything else raises in `hget(v)` |
| `DomainModel.Load` | domain_model.py:59-70 | an absent entity hash loads as an empty dict; a loaded entity has the hash's fields, and exactly its non-key-shaped strings come back as scalars, unchanged |
| `DomainModel.Retrieve` | domain_model.py:50-71 | retrieve returns entities exactly when the index set is absent or a set and every indexed id loads; with no index set the result is empty; otherwise its keys are exactly the indexed ids, each entity equal to that id's load; a non-set index raises WRONGTYPE, and otherwise the errors that may surface are exactly those of the failing loads |
| `DomainModel.UpdateField` | domain_model.py:81-97 | one field write of update touches only the entity hash and that field's composite key |
| `DomainModel.UpdateFields` | domain_model.py:80-97 | update's loop touches only the entity hash and the composite keys of the record's list, set and dict fields |
| `DomainModel.UpdateWith` | domain_model.py:73-97 | an empty record changes nothing; a non-empty one without `entity_id` raises; the index set is never touched; no key beyond entity hash and composite keys changes |
| `DomainModel.Update` | domain_model.py:73-97 | the corrected update leaves the topic's index set exactly as it was |
| `DomainModel.UpdateAsWritten` | domain_model.py:73-97 | update as written leaves the topic's index set exactly as it was |
| `DomainModel.DeleteComposites` | domain_model.py:108-110 | delete's loop removes exactly the composite keys of the passed record's list, set and dict fields |
| `DomainModel.DeleteAsWritten` | domain_model.py:99-110 | delete as written raises without `entity_id`, on a list, set or dict `entity_id`, and on a non-set index, and succeeds otherwise; it takes both `"1"` and the id out of the index and removes the entity hash and the passed composites, and nothing else |
| `DomainModel.Delete` | domain_model.py:99-110 | the corrected delete fails exactly where delete as written does, and on success takes only the id out of the index, removes the entity hash and the passed composites, and leaves every other key unchanged |
| `DomainModel.Exists` | domain_model.py:112-122 | false when the index set is absent, whatever the id; true for a falsy id; otherwise membership of the id, or WRONGTYPE on a non-set index |
| `Layout.ResolveStored` | domain_model.py:61-68 | a list, set or dict stored under a key-shaped name reads back as itself |
| `Layout.FieldReadsBack` | domain_model.py:59-70 | a field's hash entry resolves to the field when its composite key holds the value and a scalar does not look like a key |
| `Layout.LoadResolved` | domain_model.py:59-70 | an entity hash whose every string resolves to a field of the entity loads as exactly that entity |
| `Layout.LoadUnresolved` | domain_model.py:59-70 | one unresolvable string in the entity hash makes loading raise |
| `CreateProperties.CreateFieldEffect` | domain_model.py:35-48 | writing one storable field puts its hash entry in the entity hash and appends its contents to its composite key |
| `CreateProperties.CreateFieldsEffect` | domain_model.py:34-48 | create's loop succeeds on storable fields, extends the entity hash by their entries, and appends each composite to what its key held |
| `CreateProperties.CreateEffect` | domain_model.py:26-48 | create never replaces: the entity hash keeps its old fields under the new entries, and a composite key that already exists is appended to |
| `CreateProperties.CreateFresh` | domain_model.py:26-48 | into a store holding nothing for the entity, the entity hash holds exactly the scalars verbatim and the composite key names, and each composite key holds exactly its value |
| `CreateProperties.LoadAfterCreate` | domain_model.py:26-71 | round trip: create into a fresh store, then loading the entity gives back the record, provided no scalar looks like a key |
| `CreateProperties.RetrieveAfterCreate` | domain_model.py:26-71 | after create, a retrieve that succeeds holds the record under its id |
| `CreateProperties.RetrieveAfterCreateOnEmptyStore` | domain_model.py:26-71 | create into an empty store, then retrieve, gives exactly the one record under its id |
| `CreateProperties.RetrieveSingle` | domain_model.py:57-71 | a topic indexing one id retrieves exactly that entity |
| `CreateProperties.KeyShapedScalarIsMisread` | domain_model.py:61-70 | a scalar containing both `_` and `:` is never read back verbatim; when it names no key, loading raises |
| `CreateProperties.CreateFieldsRefuseEmpty` | domain_model.py:34-46 | create's loop raises once it reaches an empty list, set or dict field, if not before |
| `CreateProperties.CreateRefusesEmpty` | domain_model.py:33-46 | create raises on every record with an empty list, set or dict field: RPUSH and SADD refuse no values, the client refuses HMSET with an empty mapping |
| `CreateProperties.CreateEntityHashWrongType` | domain_model.py:35-48 | create raises exactly WRONGTYPE when the entity's key holds something other than a hash: the first field's HSET meets it |
| `CreateProperties.CreateFieldsCompositeWrongType` | domain_model.py:34-46 | create's loop raises once it reaches a list, set or dict field whose key holds another kind of value, since no earlier write reaches that key |
| `CreateProperties.CreateCompositeWrongType` | domain_model.py:36-46 | create raises on every record with a list, set or dict field (not named `entity`) whose key already holds another kind of value: RPUSH, SADD or HMSET meets WRONGTYPE |
| `CreateProperties.ExistsAfterCreate` | domain_model.py:120-122 | after create, exists reports the topic and the id |
| `UpdateProperties.UpdateFieldEffect` | domain_model.py:81-97 | one field of update puts its hash entry in the entity hash and leaves its composite key holding exactly the new value |
| `UpdateProperties.UpdateFieldsEffect` | domain_model.py:80-97 | update's loop succeeds on storable fields, extends the entity hash by their entries and replaces each composite |
| `UpdateProperties.UpdateReplacesComposites` | domain_model.py:80-97 | after update each list, set and dict key holds exactly the new contents, whatever it held before |
| `UpdateProperties.LoadAfterUpdate` | domain_model.py:26-97 | create then update of the same entity loads as the first record overridden field by field by the second |
| `UpdateProperties.UpdateFieldsAgreeWithoutDicts` | domain_model.py:91-95 | on fields that hold no dict, update's loop as written and the corrected loop give the same result |
| `UpdateProperties.UpdateAsWrittenWithoutDicts` | domain_model.py:91-95 | for records without dict fields, update as written and the corrected update agree |
| `UpdateProperties.UpdateFieldsAsWrittenFailOnDict` | domain_model.py:95 | update's loop as written fails whenever a dict field comes up |
| `UpdateProperties.UpdateFieldsRefuseEmpty` | domain_model.py:80-95 | update's loop, as written or corrected, raises once it reaches an empty list, set or dict field, if not before |
| `UpdateProperties.UpdateRefusesEmpty` | domain_model.py:73-95 | update, as written or corrected, raises on every record with an empty list, set or dict field |
| `UpdateProperties.UpdateEntityHashWrongType` | domain_model.py:81-97 | update, as written or corrected, raises exactly WRONGTYPE when the entity's key holds something other than a hash: the first field's HSET meets it |
| `UpdateProperties.UpdateAsWrittenFailsOnDict` | domain_model.py:95 | update as written fails on every record with a dict field |
| `UpdateProperties.UpdateReplacesDict` | domain_model.py:91-95 | the corrected update leaves a dict field's key holding exactly the new mapping |
| `DeleteProperties.DeleteLeavesOmittedComposites` | domain_model.py:108-110 | the composite key of a field missing from, or scalar in, the passed record survives delete unchanged |
| `DeleteProperties.ExistsAfterDelete` | domain_model.py:106-122 | after delete, exists reports the deleted id as absent |
| `DeleteProperties.ExistsTopicAfterDelete` | domain_model.py:106-122 | after delete, exists(topic) holds exactly when some other id remains indexed |
| `DeleteProperties.DeleteKeepsOtherIds` | domain_model.py:106 | the corrected delete leaves what exists reports for every other id unchanged |
| `DeleteProperties.ExistsTopicMeansIndexed` | domain_model.py:120-122 | in a well-formed store exists(topic) holds exactly when some id is indexed |
| `DeleteProperties.DeleteAsWrittenUnindexesOne` | domain_model.py:106 | delete as written always leaves id `"1"` unreported by exists |
| `DeleteProperties.DeleteAsWrittenExample` | domain_model.py:106 | with ids `1` and `7`, deleting `7` as written unindexes `1` and orphans its hash, so retrieve finds nothing |
| `DeleteProperties.DeleteCorrectedExample` | domain_model.py:106 | with ids `1` and `7`, the corrected delete of `7` keeps `1` indexed |
| `Scenarios.CreateRetrieveExample` | domain_model.py:26-71 | user `1` named Alice with roles `admin`, `ops` created in an empty store retrieves as exactly that user |
| `Scenarios.MisreadExample` | domain_model.py:61-70 | a note `a_b:c` is looked up as a key and loading the entity raises |

## Left out

- The Redis client, its connection and protocol. The store is a map and the commands are pure functions; there is no concurrency or interleaving with other writers.
- Decoding bytes into text, and Redis's string coercion of numbers and other scalars. Every scalar, member and field is a string.
- Nesting deeper than one level. Values of a list, set or dict field are strings.
- Create: when a command fails mid-loop, the model returns only the error and drops the writes made before it. Redis keeps them, because the class is not atomic. The same holds for `UpdateWith`, `Update` and `UpdateAsWritten`.
- UpdateWith: a list, set or dict `entity_id` is refused (`InvalidInput`). Python would format its repr into the key names, and the write could succeed.
- Retrieve: reports the set of errors that could surface rather than the one that does, because the order in which Python iterates a Redis set is not specified.
- The idempotence of `exists`. `Exists` is a pure function of the store, so two calls without a write in between agree by definition.

## Findings

| source | as written | input that shows it | evidently intended | confidence | as-written member | corrected member |
|---|---|---|---|---|---|---|
| domain_model.py:106 | `srem('{topic}_ids', 1, id)` removes the member `1` along with the id | index `{1, 7}`, delete entity `7`: entity `1` is no longer indexed, and its hash is orphaned | remove only the id from the index | high, not executed | `DomainModel.DeleteAsWritten` (`DeleteProperties.DeleteAsWrittenUnindexesOne`, `DeleteProperties.DeleteAsWrittenExample`) | `DomainModel.Delete` (`DeleteProperties.DeleteKeepsOtherIds`, `DeleteProperties.DeleteCorrectedExample`) |
| domain_model.py:95 | `hmset(did, *v)` unpacks the dict's keys as positional arguments of `hmset(name, mapping)`: an empty dict leaves `mapping` missing, two or more keys are too many arguments, and a single key is taken as `mapping` and fails in `hmset`'s checks of `mapping`, so update raises on every dict field | update of an entity with field `meta: {"a": "b"}` | `hmset(did, v)`, as create does at line 46 | high, not executed | `DomainModel.UpdateAsWritten` (`UpdateProperties.UpdateAsWrittenFailsOnDict`) | `DomainModel.Update` (`UpdateProperties.UpdateReplacesDict`) |

=== FILE: create_properties.dfy ===
/**
  What create writes, and the round trip create-then-retrieve.
 */
module CreateProperties {
  import opened Store
  import opened Keys
  import opened DomainModel
  import opened Layout

  /** The fields `ks` create may write into `st` without a refusal. */
  predicate Creatable(st: Store, topic: string, id: string, rec: Record, ks: seq<string>)
    requires forall k | k in ks :: k in rec.entries
  {
    forall k | k in ks ::
      StorableField(k, rec.entries[k]) && Fits(st, CompositeKey(topic, k, id), rec.entries[k])
  }

  /** One field: the entity hash gains its entry and its composite key gains its contents. */
  lemma CreateFieldEffect(st: Store, topic: string, id: string, field: string, v: Value)
    requires EntityHashUsable(st, topic, id)
    requires StorableField(field, v) && Fits(st, CompositeKey(topic, field, id), v)
    ensures CreateField(st, topic, id, field, v).Success?
    ensures EntityKey(topic, id) in CreateField(st, topic, id, field, v).value
    ensures CreateField(st, topic, id, field, v).value[EntityKey(topic, id)]
         == RHash(HashAt(st, EntityKey(topic, id))[field := HashEntry(topic, id, field, v)])
    ensures v.IsComposite() ==>
      && CompositeKey(topic, field, id) in CreateField(st, topic, id, field, v).value
      && CreateField(st, topic, id, field, v).value[CompositeKey(topic, field, id)] == Appended(st, CompositeKey(topic, field, id), v)
  {
    if v.IsComposite() {
      StorableCompositeKey(topic, id, field, v);
    }
  }

  /** Writing the first field's entry, then the rest, gives the entries of all fields. */
  lemma EntryMapCons(topic: string, id: string, rec: Record, ks: seq<string>, h: map<string, string>)
    requires ks != [] && forall k | k in ks :: k in rec.entries
    ensures h[ks[0] := HashEntry(topic, id, ks[0], rec.entries[ks[0]])] + EntryMap(topic, id, rec, ks[1..])
         == h + EntryMap(topic, id, rec, ks)
  {
    assert forall k | k in ks[1..] :: k in ks;
  }

  /**
    Create's loop over distinct fields that the store accepts: the entity
    hash holds what it held plus one entry per field, and every composite key
    holds what it held with the field's contents appended.
   */
  lemma {:induction false} CreateFieldsEffect(st: Store, topic: string, id: string, rec: Record, ks: seq<string>)
    requires forall k | k in ks :: k in rec.entries
    requires Distinct(ks)
    requires EntityHashUsable(st, topic, id)
    requires Creatable(st, topic, id, rec, ks)
    ensures CreateFields(st, topic, id, rec, ks).Success?
    ensures ks != [] || EntityKey(topic, id) in st ==>
      && EntityKey(topic, id) in CreateFields(st, topic, id, rec, ks).value
      && CreateFields(st, topic, id, rec, ks).value[EntityKey(topic, id)]
         == RHash(HashAt(st, EntityKey(topic, id)) + EntryMap(topic, id, rec, ks))
    ensures forall k | k in ks && rec.entries[k].IsComposite() ::
      && CompositeKey(topic, k, id) in CreateFields(st, topic, id, rec, ks).value
      && CreateFields(st, topic, id, rec, ks).value[CompositeKey(topic, k, id)] == Appended(st, CompositeKey(topic, k, id), rec.entries[k])
    decreases |ks|
  {
    if ks != [] {
      var entity := EntityKey(topic, id);
      var k0, v0, rest := ks[0], rec.entries[ks[0]], ks[1..];
      assert Distinct(rest) && k0 !in rest by {
        assert forall i | 0 <= i < |rest| :: rest[i] == ks[i + 1];
      }
      CreateFieldEffect(st, topic, id, k0, v0);
      var st1 := CreateField(st, topic, id, k0, v0).value;
      // every later composite key still holds what it held in st
      forall k | k in rest
        ensures Fits(st1, CompositeKey(topic, k, id), rec.entries[k])
        ensures rec.entries[k].IsComposite() ==>
          Appended(st1, CompositeKey(topic, k, id), rec.entries[k]) == Appended(st, CompositeKey(topic, k, id), rec.entries[k])
      {
        if rec.entries[k].IsComposite() {
          StorableCompositeKey(topic, id, k, rec.entries[k]);
          if CompositeKey(topic, k, id) == CompositeKey(topic, k0, id) {
            CompositeKeyInjective(topic, k, k0, id);
          }
        }
      }
      CreateFieldsEffect(st1, topic, id, rec, rest);
      var r := CreateFields(st1, topic, id, rec, rest).value;
      assert CreateFields(st, topic, id, rec, ks) == Success(r);
      EntryMapCons(topic, id, rec, ks, HashAt(st, entity));
      forall k | k in ks && rec.entries[k].IsComposite()
        ensures CompositeKey(topic, k, id) in r
        ensures r[CompositeKey(topic, k, id)] == Appended(st, CompositeKey(topic, k, id), rec.entries[k])
      {
        if k == k0 {
          StorableCompositeKey(topic, id, k0, v0);
          CompositeKeyOutside(topic, id, rec, rest, k0);
        }
      }
    }
  }

  /**
    Create never deletes: against a store that accepts every write, it
    indexes the id, extends the entity hash by one entry per field and
    appends each list, set or dict to whatever its composite key already held.
   */
  lemma CreateEffect(st: Store, topic: string, rec: Record)
    requires EntityIdOf(rec).Success?
    requires Storable(rec)
    requires IndexKey(topic) !in st || st[IndexKey(topic)].RSet?
    requires EntityHashUsable(st, topic, EntityIdOf(rec).value)
    requires forall k | k in rec.entries :: Fits(st, CompositeKey(topic, k, EntityIdOf(rec).value), rec.entries[k])
    ensures Create(st, topic, rec).Success?
    ensures EntityKey(topic, EntityIdOf(rec).value) in Create(st, topic, rec).value
    ensures Create(st, topic, rec).value[EntityKey(topic, EntityIdOf(rec).value)]
         == RHash(HashAt(st, EntityKey(topic, EntityIdOf(rec).value)) + EntryMap(topic, EntityIdOf(rec).value, rec, rec.order))
    ensures forall k | k in rec.entries && rec.entries[k].IsComposite() ::
      && CompositeKey(topic, k, EntityIdOf(rec).value) in Create(st, topic, rec).value
      && Create(st, topic, rec).value[CompositeKey(topic, k, EntityIdOf(rec).value)]
         == Appended(st, CompositeKey(topic, k, EntityIdOf(rec).value), rec.entries[k])
  {
    var id := EntityIdOf(rec).value;
    OrderDistinct(rec);
    IndexKeyUntouched(topic, id, rec, rec.order);
    var st1 := SAdd(st, IndexKey(topic), {id}).value;
    assert Create(st, topic, rec) == CreateFields(st1, topic, id, rec, rec.order);
    // indexing the id touches none of the keys the fields are written to
    assert HashAt(st1, EntityKey(topic, id)) == HashAt(st, EntityKey(topic, id));
    forall k | k in rec.order
      ensures Fits(st1, CompositeKey(topic, k, id), rec.entries[k])
      ensures rec.entries[k].IsComposite() ==>
        Appended(st1, CompositeKey(topic, k, id), rec.entries[k]) == Appended(st, CompositeKey(topic, k, id), rec.entries[k])
    {
      IndexKeyIsNoCompositeKey(topic, k, id);
    }
    assert rec.order != [] by {
      assert EntityIdField in rec.order;
    }
    CreateFieldsEffect(st1, topic, id, rec, rec.order);
  }

  /** The store holds nothing yet for this entity. */
  predicate Fresh(st: Store, topic: string, rec: Record)
    requires EntityIdOf(rec).Success?
  {
    && (IndexKey(topic) !in st || st[IndexKey(topic)].RSet?)
    && EntityKey(topic, EntityIdOf(rec).value) !in st
    && forall k | k in rec.entries :: CompositeKey(topic, k, EntityIdOf(rec).value) !in st
  }

  /** Create into a fresh entity: its hash holds exactly the record's entries, its composite keys exactly their contents. */
  lemma CreateFresh(st: Store, topic: string, rec: Record)
    requires EntityIdOf(rec).Success? && Storable(rec) && Fresh(st, topic, rec)
    ensures Create(st, topic, rec).Success?
    ensures EntityKey(topic, EntityIdOf(rec).value) in Create(st, topic, rec).value
    ensures Create(st, topic, rec).value[EntityKey(topic, EntityIdOf(rec).value)]
         == RHash(EntryMap(topic, EntityIdOf(rec).value, rec, rec.order))
    ensures forall k | k in rec.entries && rec.entries[k].IsComposite() ::
      && CompositeKey(topic, k, EntityIdOf(rec).value) in Create(st, topic, rec).value
      && Create(st, topic, rec).value[CompositeKey(topic, k, EntityIdOf(rec).value)] == Stored(rec.entries[k])
  {
    var id := EntityIdOf(rec).value;
    assert forall k | k in rec.entries :: Fits(st, CompositeKey(topic, k, id), rec.entries[k]);
    CreateEffect(st, topic, rec);
    HashAtAbsent(st, EntityKey(topic, id), EntryMap(topic, id, rec, rec.order));
    forall k | k in rec.entries && rec.entries[k].IsComposite()
      ensures Appended(st, CompositeKey(topic, k, id), rec.entries[k]) == Stored(rec.entries[k])
    {
      AppendedToAbsent(st, CompositeKey(topic, k, id), rec.entries[k]);
    }
  }

  /**
    Round trip: a record whose scalars do not look like keys, created into a
    store that holds nothing for it, loads back equal to itself.
   */
  lemma LoadAfterCreate(st: Store, topic: string, rec: Record)
    requires EntityIdOf(rec).Success? && Storable(rec) && Unambiguous(rec) && Fresh(st, topic, rec)
    ensures Create(st, topic, rec).Success?
    ensures Load(Create(st, topic, rec).value, topic, EntityIdOf(rec).value) == Success(rec.entries)
  {
    var id := EntityIdOf(rec).value;
    CreateFresh(st, topic, rec);
    var r := Create(st, topic, rec).value;
    var fields := EntryMap(topic, id, rec, rec.order);
    forall k | k in rec.entries
      ensures Resolve(r, fields[k]) == Success(rec.entries[k])
    {
      FieldReadsBack(r, topic, id, k, rec.entries[k]);
    }
    LoadResolved(r, topic, id, rec.entries);
  }

  /** Retrieve after create: when it reads anything, it reads the record back under its id. */
  lemma RetrieveAfterCreate(st: Store, topic: string, rec: Record)
    requires EntityIdOf(rec).Success? && Storable(rec) && Unambiguous(rec) && Fresh(st, topic, rec)
    ensures Create(st, topic, rec).Success?
    ensures Retrieve(Create(st, topic, rec).value, topic).Entities? ==>
      && EntityIdOf(rec).value in Retrieve(Create(st, topic, rec).value, topic).entities
      && Retrieve(Create(st, topic, rec).value, topic).entities[EntityIdOf(rec).value] == rec.entries
  {
    LoadAfterCreate(st, topic, rec);
  }

  /** Into an empty store, create then retrieve yields exactly the one record. */
  lemma RetrieveAfterCreateOnEmptyStore(topic: string, rec: Record)
    requires EntityIdOf(rec).Success? && Storable(rec) && Unambiguous(rec)
    ensures Create(map[], topic, rec).Success?
    ensures Retrieve(Create(map[], topic, rec).value, topic) == Entities(map[EntityIdOf(rec).value := rec.entries])
  {
    var id := EntityIdOf(rec).value;
    LoadAfterCreate(map[], topic, rec);
    var r := Create(map[], topic, rec).value;
    assert IndexKey(topic) in r && r[IndexKey(topic)].RSet?;
    assert r[IndexKey(topic)].members == {id};
    RetrieveSingle(r, topic, id, rec.entries);
  }

  /** A topic whose index holds one id retrieves that one entity. */
  lemma RetrieveSingle(st: Store, topic: string, id: string, entity: map<string, Value>)
    requires IndexKey(topic) in st && st[IndexKey(topic)] == RSet({id})
    requires Load(st, topic, id) == Success(entity)
    ensures Retrieve(st, topic) == Entities(map[id := entity])
  {
    assert (set eid | eid in {id} && Load(st, topic, eid).Failure?) == {};
    assert (map eid | eid in {id} :: Load(st, topic, eid).value) == map[id := entity];
  }

  /**
    The reference heuristic misreads a scalar that contains both `_` and
    `:`: after create, loading the entity fails or yields something else for
    that field, never the string that was written.
   */
  lemma KeyShapedScalarIsMisread(st: Store, topic: string, rec: Record, field: string)
    requires EntityIdOf(rec).Success? && Storable(rec) && Fresh(st, topic, rec)
    requires field in rec.entries && rec.entries[field].Scalar? && IsKey(rec.entries[field].text)
    ensures Create(st, topic, rec).Success?
    ensures Load(Create(st, topic, rec).value, topic, EntityIdOf(rec).value).Success? ==>
      && field in Load(Create(st, topic, rec).value, topic, EntityIdOf(rec).value).value
      && Load(Create(st, topic, rec).value, topic, EntityIdOf(rec).value).value[field] != rec.entries[field]
    ensures rec.entries[field].text !in Create(st, topic, rec).value ==>
      Load(Create(st, topic, rec).value, topic, EntityIdOf(rec).value) == Failure(HGetMissingField)
  {
    CreateFresh(st, topic, rec);
    var r := Create(st, topic, rec).value;
    var id := EntityIdOf(rec).value;
    if rec.entries[field].text !in r {
      assert r[EntityKey(topic, id)].fields[field] == rec.entries[field].text;
      LoadUnresolved(r, topic, id, field);
    }
  }

  /** Create's loop fails once it meets an empty list, set or dict, if not before. */
  lemma {:induction false} CreateFieldsRefuseEmpty(st: Store, topic: string, id: string, rec: Record, ks: seq<string>, field: string)
    requires forall k | k in ks :: k in rec.entries
    requires field in ks && EmptyCollection(rec.entries[field])
    ensures CreateFields(st, topic, id, rec, ks).Failure?
    decreases |ks|
  {
    var r := CreateField(st, topic, id, ks[0], rec.entries[ks[0]]);
    if ks[0] != field && r.Success? {
      CreateFieldsRefuseEmpty(r.value, topic, id, rec, ks[1..], field);
    }
  }

  /** Create raises on a record with an empty list, set or dict field: Redis or the client refuses the empty write. */
  lemma CreateRefusesEmpty(st: Store, topic: string, rec: Record, field: string)
    requires field in rec.entries && EmptyCollection(rec.entries[field])
    ensures Create(st, topic, rec).Failure?
  {
    if EntityIdOf(rec).Success? && SAdd(st, IndexKey(topic), {EntityIdOf(rec).value}).Success? {
      CreateFieldsRefuseEmpty(SAdd(st, IndexKey(topic), {EntityIdOf(rec).value}).value, topic, EntityIdOf(rec).value, rec, rec.order, field);
    }
  }

  /** Create raises WRONGTYPE when the entity's key holds something other than a hash: the first field's HSET meets it. */
  lemma CreateEntityHashWrongType(st: Store, topic: string, rec: Record)
    requires EntityIdOf(rec).Success? && !EntityHashUsable(st, topic, EntityIdOf(rec).value)
    ensures Create(st, topic, rec) == Failure(WrongType)
  {
    var id := EntityIdOf(rec).value;
    var index := SAdd(st, IndexKey(topic), {id});
    if index.Success? {
      IndexKeyUntouched(topic, id, rec, rec.order);
      assert rec.order[0] in rec.entries;
      assert EntityKey(topic, id) in index.value && index.value[EntityKey(topic, id)] == st[EntityKey(topic, id)];
      assert CreateField(index.value, topic, id, rec.order[0], rec.entries[rec.order[0]]) == Failure(WrongType);
    }
  }

  /**
    Create's loop raises once it reaches a list, set or dict field whose key
    holds another kind of value: no earlier write reaches that key.
   */
  lemma {:induction false} CreateFieldsCompositeWrongType(st: Store, topic: string, id: string, rec: Record, ks: seq<string>, field: string)
    requires forall k | k in ks :: k in rec.entries
    requires field in ks && field != "entity" && !Fits(st, CompositeKey(topic, field, id), rec.entries[field])
    ensures CreateFields(st, topic, id, rec, ks).Failure?
    decreases |ks|
  {
    var composite := CompositeKey(topic, field, id);
    CompositeKeyIsEntityKey(topic, field, id);
    var r := CreateField(st, topic, id, ks[0], rec.entries[ks[0]]);
    if ks[0] != field && r.Success? {
      if CompositeKey(topic, ks[0], id) == composite {
        CompositeKeyInjective(topic, ks[0], field, id);
        assert false;
      }
      assert composite in r.value && r.value[composite] == st[composite];
      CreateFieldsCompositeWrongType(r.value, topic, id, rec, ks[1..], field);
    }
  }

  /** Create raises on a list, set or dict field whose key already holds another kind of value. */
  lemma CreateCompositeWrongType(st: Store, topic: string, rec: Record, field: string)
    requires EntityIdOf(rec).Success? && field in rec.entries && field != "entity"
    requires !Fits(st, CompositeKey(topic, field, EntityIdOf(rec).value), rec.entries[field])
    ensures Create(st, topic, rec).Failure?
  {
    var id := EntityIdOf(rec).value;
    var index := SAdd(st, IndexKey(topic), {id});
    if index.Success? {
      IndexKeyIsNoCompositeKey(topic, field, id);
      assert CompositeKey(topic, field, id) in index.value;
      CreateFieldsCompositeWrongType(index.value, topic, id, rec, rec.order, field);
    }
  }

  /** Create indexes the id, so exists reports it, with or without the id. */
  lemma ExistsAfterCreate(st: Store, topic: string, rec: Record)
    requires Create(st, topic, rec).Success?
    ensures Exists(Create(st, topic, rec).value, topic, Some(EntityIdOf(rec).value)) == Success(true)
    ensures Exists(Create(st, topic, rec).value, topic, None) == Success(true)
  {
  }
}

=== FILE: delete_properties.dfy ===
/**
  What delete removes and what it leaves, and what exists reports around
  create and delete.  Both the source's delete and the corrected one are
  covered; they differ only in the member "1" of the index set.
 */
module DeleteProperties {
  import opened Store
  import opened Keys
  import opened DomainModel
  import opened Layout

  /** The composite key of a field delete was not told about survives it unchanged. */
  lemma DeleteLeavesOmittedComposites(st: Store, topic: string, rec: Record, field: string)
    requires EntityIdOf(rec).Success? && (IndexKey(topic) !in st || st[IndexKey(topic)].RSet?)
    requires field !in rec.entries || rec.entries[field].Scalar?
    requires field != "entity"
    requires CompositeKey(topic, field, EntityIdOf(rec).value) in st
    ensures Delete(st, topic, rec).Success?
    ensures CompositeKey(topic, field, EntityIdOf(rec).value) in Delete(st, topic, rec).value
    ensures Delete(st, topic, rec).value[CompositeKey(topic, field, EntityIdOf(rec).value)]
         == st[CompositeKey(topic, field, EntityIdOf(rec).value)]
  {
    var id := EntityIdOf(rec).value;
    OrderDistinct(rec);
    IndexKeyIsNoCompositeKey(topic, field, id);
    CompositeKeyIsEntityKey(topic, field, id);
    CompositeKeyOutside(topic, id, rec, rec.order, field);
  }

  /** After delete, exists no longer reports the id. */
  lemma ExistsAfterDelete(st: Store, topic: string, rec: Record)
    requires Delete(st, topic, rec).Success?
    requires EntityIdOf(rec).value != ""
    ensures Exists(Delete(st, topic, rec).value, topic, Some(EntityIdOf(rec).value)) == Success(false)
  {
  }

  /** After delete, exists(topic) holds exactly when another id is still indexed. */
  lemma ExistsTopicAfterDelete(st: Store, topic: string, rec: Record)
    requires Delete(st, topic, rec).Success?
    ensures Exists(Delete(st, topic, rec).value, topic, None) == Success(true)
        <==> IndexKey(topic) in st && st[IndexKey(topic)].members - {EntityIdOf(rec).value} != {}
  {
  }

  /** Delete leaves every other id's membership of the index as it was. */
  lemma DeleteKeepsOtherIds(st: Store, topic: string, rec: Record, other: string)
    requires Delete(st, topic, rec).Success?
    requires other != EntityIdOf(rec).value && other != ""
    ensures Exists(Delete(st, topic, rec).value, topic, Some(other)) == Exists(st, topic, Some(other))
  {
    var ix := IndexKey(topic);
    var r := Delete(st, topic, rec).value;
    if ix in st && other in st[ix].members {
      assert other in st[ix].members - {EntityIdOf(rec).value};
    }
  }

  /** In a well-formed store, exists(topic) holds exactly when some id is indexed. */
  lemma ExistsTopicMeansIndexed(st: Store, topic: string)
    requires WellFormed(st)
    requires IndexKey(topic) !in st || st[IndexKey(topic)].RSet?
    ensures Exists(st, topic, None) == Success(SMembers(st, IndexKey(topic)).value != {})
  {
  }

  /** The source's delete always drops the member "1" from the index, whichever entity it deletes. */
  lemma DeleteAsWrittenUnindexesOne(st: Store, topic: string, rec: Record)
    requires DeleteAsWritten(st, topic, rec).Success?
    ensures Exists(DeleteAsWritten(st, topic, rec).value, topic, Some("1")) == Success(false)
  {
  }

  /** Two users, "1" and "7", indexed with their hashes. */
  function TwoUsers(): Store {
    map["user_ids" := RSet({"1", "7"}),
        "user_entity:1" := RHash(map["entity_id" := "1"]),
        "user_entity:7" := RHash(map["entity_id" := "7"])]
  }

  /** The record passed to delete user "7". */
  function UserSeven(): Record {
    Dict(map["entity_id" := Scalar("7")], ["entity_id"])
  }

  /**
    A concrete case: with users "1" and "7" indexed, the source's delete of
    "7" also unindexes "1" (and, the index emptying, removes it), leaving the
    hash of "1" orphaned and retrieve empty.
   */
  lemma DeleteAsWrittenExample()
    ensures Exists(TwoUsers(), "user", Some("1")) == Success(true)
    ensures DeleteAsWritten(TwoUsers(), "user", UserSeven()).Success?
    ensures Exists(DeleteAsWritten(TwoUsers(), "user", UserSeven()).value, "user", Some("1")) == Success(false)
    ensures "user_entity:1" in DeleteAsWritten(TwoUsers(), "user", UserSeven()).value
    ensures Retrieve(DeleteAsWritten(TwoUsers(), "user", UserSeven()).value, "user") == Entities(map[])
  {
    var st, rec := TwoUsers(), UserSeven();
    assert EntityIdOf(rec) == Success("7");
    assert IndexKey("user") == "user_ids";
    assert "user_ids" in st && st["user_ids"] == RSet({"1", "7"});
    assert Exists(st, "user", Some("1")) == Success(true);
    assert EntityKey("user", "7") == "user_entity:7";
    assert "user_entity:1" != "user_entity:7" by {
      assert "user_entity:1"[12] != "user_entity:7"[12];
    }
    assert DeleteAsWritten(st, "user", rec).Success?;
    var written := DeleteAsWritten(st, "user", rec).value;
    assert {"1", "7"} - {"1", "7"} == {};
    assert "user_ids" !in written;
    assert CompositeKeys("user", "7", rec, rec.order) == {};
    assert DeletedFrom(st, written, "user", "7", rec, {"1", "7"});
    assert "user_entity:1" in st && |"user_entity:1"| != |"user_ids"|;
    assert "user_entity:1" in written;
  }

  /** The same case under the corrected delete: user "1" stays indexed. */
  lemma DeleteCorrectedExample()
    ensures Delete(TwoUsers(), "user", UserSeven()).Success?
    ensures Exists(Delete(TwoUsers(), "user", UserSeven()).value, "user", Some("1")) == Success(true)
  {
    var st, rec := TwoUsers(), UserSeven();
    assert EntityIdOf(rec) == Success("7");
    assert IndexKey("user") == "user_ids";
    assert Delete(st, "user", rec).Success?;
    var corrected := Delete(st, "user", rec).value;
    assert "1" in {"1", "7"} - {"7"};
    assert "user_ids" in corrected && "1" in corrected["user_ids"].members;
  }
}

=== FILE: domain_model.dfy ===
/**
  The domain model: records with an entity_id, persisted into the store as
  one index set per topic, one hash per entity and one extra key per list,
  set or dict field.  Each operation is a pure function from the store before
  to the store after (or to what it reads), issuing the commands of the
  `Store` module in the order the Python class issues them.
 */
module DomainModel {
  import opened Store
  import opened Keys

  /** A field value of a record: a string, or a one-level list, set or dict of strings. */
  datatype Value =
    | Scalar(text: string)
    | ListValue(items: seq<string>)
    | SetValue(members: set<string>)
    | DictValue(entries: map<string, string>)
  {
    /** Lists, sets and dicts are stored under a key of their own. */
    predicate IsComposite() {
      !Scalar?
    }
  }

  /** A Python dict: its entries and the order in which they were inserted. */
  datatype Dict = Dict(entries: map<string, Value>, order: seq<string>)

  /** No key is listed twice. */
  predicate Distinct(ks: seq<string>) {
    forall i, j | 0 <= i < j < |ks| :: ks[i] != ks[j]
  }

  predicate InsertionOrdered(d: Dict) {
    && Distinct(d.order)
    && (forall k | k in d.entries :: k in d.order)
    && (forall k | k in d.order :: k in d.entries)
  }

  type Record = d: Dict | InsertionOrdered(d) witness Dict(map[], [])

  datatype Option<+T> = None | Some(value: T)

  /** The reply of retrieve: the entities read, or the errors one of which is raised. */
  datatype Retrieved =
    | Entities(entities: map<string, map<string, Value>>)
    | Raised(possible: set<Error>)

  const EntityIdField := "entity_id"

  /** `_values['entity_id']`, used as a command argument or formatted into a key name. */
  function EntityIdOf(rec: Record): (r: Result<string>)
    ensures EntityIdField !in rec.entries ==> r == Failure(MissingEntityId)
    ensures r.Success? <==> EntityIdField in rec.entries && rec.entries[EntityIdField].Scalar?
    ensures r.Success? ==> rec.entries[EntityIdField] == Scalar(r.value)
    ensures EntityIdField in rec.entries && !rec.entries[EntityIdField].Scalar? ==> r == Failure(InvalidInput)
  {
    if EntityIdField !in rec.entries then Failure(MissingEntityId)
    else if rec.entries[EntityIdField].Scalar? then Success(rec.entries[EntityIdField].text)
    else Failure(InvalidInput)
  }

  /** What create and update write into the entity hash for `field`: the string itself or the composite key's name. */
  function HashEntry(topic: string, id: string, field: string, v: Value): string {
    if v.Scalar? then v.text else CompositeKey(topic, field, id)
  }

  /** The composite keys of the list, set and dict fields among `ks`. */
  function CompositeKeys(topic: string, id: string, rec: Record, ks: seq<string>): set<string>
    requires forall k | k in ks :: k in rec.entries
    decreases |ks|
  {
    if ks == [] then {}
    else (if rec.entries[ks[0]].IsComposite() then {CompositeKey(topic, ks[0], id)} else {}) + CompositeKeys(topic, id, rec, ks[1..])
  }

  // ---------------------------------------------------------------------------
  // create
  // ---------------------------------------------------------------------------

  /** One iteration of create's loop over the record's items. */
  function CreateField(st: Store, topic: string, id: string, field: string, v: Value): (r: Result<Store>)
    ensures r.Success? ==> st.Keys <= r.value.Keys
    ensures r.Success? ==> forall key | key != EntityKey(topic, id) && (v.Scalar? || key != CompositeKey(topic, field, id)) ::
      (key in r.value <==> key in st) && (key in st ==> r.value[key] == st[key])
    ensures WellFormed(st) && r.Success? ==> WellFormed(r.value)
  {
    var entity := EntityKey(topic, id);
    var composite := CompositeKey(topic, field, id);
    match v
    case Scalar(s) => HSet(st, entity, field, s)
    case ListValue(xs) =>
      var st1 :- HSet(st, entity, field, composite);
      RPush(st1, composite, xs)
    case SetValue(xs) =>
      var st1 :- HSet(st, entity, field, composite);
      SAdd(st1, composite, xs)
    case DictValue(m) =>
      var st1 :- HSet(st, entity, field, composite);
      HMSet(st1, composite, m)
  }

  /** Create's loop over the fields `ks`, stopping at the first error. */
  function CreateFields(st: Store, topic: string, id: string, rec: Record, ks: seq<string>): (r: Result<Store>)
    requires forall k | k in ks :: k in rec.entries
    ensures r.Success? ==> st.Keys <= r.value.Keys
    ensures r.Success? ==> forall key | key != EntityKey(topic, id) && key !in CompositeKeys(topic, id, rec, ks) ::
      (key in r.value <==> key in st) && (key in st ==> r.value[key] == st[key])
    ensures WellFormed(st) && r.Success? ==> WellFormed(r.value)
    decreases |ks|
  {
    if ks == [] then Success(st)
    else
      var st1 :- CreateField(st, topic, id, ks[0], rec.entries[ks[0]]);
      CreateFields(st1, topic, id, rec, ks[1..])
  }

  /** DomainModel.create: index the entity, then write its fields in insertion order. */
  function Create(st: Store, topic: string, rec: Record): (r: Result<Store>)
    ensures EntityIdField !in rec.entries ==> r == Failure(MissingEntityId)
    ensures r.Success? ==> EntityIdOf(rec).Success?
    ensures EntityIdOf(rec).Success? && IndexKey(topic) in st && !st[IndexKey(topic)].RSet? ==> r == Failure(WrongType)
    ensures r.Success? ==> IndexKey(topic) in r.value && r.value[IndexKey(topic)].RSet?
    ensures r.Success? ==> r.value[IndexKey(topic)].members
                           == (if IndexKey(topic) in st && st[IndexKey(topic)].RSet? then st[IndexKey(topic)].members else {})
                              + {EntityIdOf(rec).value}
    ensures r.Success? ==> st.Keys <= r.value.Keys
    ensures r.Success? ==> forall key | key != IndexKey(topic) && key != EntityKey(topic, EntityIdOf(rec).value)
                                        && key !in CompositeKeys(topic, EntityIdOf(rec).value, rec, rec.order) ::
      (key in r.value <==> key in st) && (key in st ==> r.value[key] == st[key])
    ensures WellFormed(st) && r.Success? ==> WellFormed(r.value)
  {
    var id :- EntityIdOf(rec);
    var st1 :- SAdd(st, IndexKey(topic), {id});
    IndexKeyUntouched(topic, id, rec, rec.order);
    CreateFields(st1, topic, id, rec, rec.order)
  }

  /** No field write of an entity lands on its topic's index set. */
  lemma {:induction false} IndexKeyUntouched(topic: string, id: string, rec: Record, ks: seq<string>)
    requires forall k | k in ks :: k in rec.entries
    ensures IndexKey(topic) != EntityKey(topic, id)
    ensures IndexKey(topic) !in CompositeKeys(topic, id, rec, ks)
    decreases |ks|
  {
    IndexKeyIsNoCompositeKey(topic, "entity", id);
    if ks != [] {
      IndexKeyIsNoCompositeKey(topic, ks[0], id);
      IndexKeyUntouched(topic, id, rec, ks[1..]);
    }
  }

  // ---------------------------------------------------------------------------
  // retrieve
  // ---------------------------------------------------------------------------

  /** Turn one string of an entity hash back into a field value. */
  function Resolve(st: Store, v: string): (r: Result<Value>)
    ensures !IsKey(v) ==> r == Success(Scalar(v))
    ensures IsKey(v) ==> (r.Success? <==> v in st && !st[v].RString?)
    ensures IsKey(v) && r.Success? ==> r.value.IsComposite()
    ensures r.Failure? ==> r.error == HGetMissingField
  {
    if !IsKey(v) then Success(Scalar(v))
    else
      var kind := TypeName(st, v);
      // the reads below cannot fail: TYPE has just reported the key's kind
      if kind == "list" then Success(ListValue(LRangeAll(st, v).value))
      else if kind == "set" then Success(SetValue(SMembers(st, v).value))
      else if kind == "hash" then Success(DictValue(HGetAll(st, v).value))
      else
        // hget(v) lacks its field argument, so Python raises before any command is sent
        Failure(HGetMissingField)
  }

  /** The body of retrieve's loop for one entity id. */
  function Load(st: Store, topic: string, eid: string): (r: Result<map<string, Value>>)
    ensures EntityKey(topic, eid) !in st ==> r == Success(map[])
    ensures EntityKey(topic, eid) in st ==> (r.Success? ==> st[EntityKey(topic, eid)].RHash?)
    ensures r.Success? && EntityKey(topic, eid) in st ==> r.value.Keys == st[EntityKey(topic, eid)].fields.Keys
    ensures r.Success? && EntityKey(topic, eid) in st ==>
      forall k | k in r.value :: (r.value[k].Scalar? <==> !IsKey(st[EntityKey(topic, eid)].fields[k]))
    ensures r.Success? && EntityKey(topic, eid) in st ==>
      forall k | k in r.value && !IsKey(st[EntityKey(topic, eid)].fields[k]) ::
        r.value[k] == Scalar(st[EntityKey(topic, eid)].fields[k])
    ensures r.Failure? ==> r.error == WrongType || r.error == HGetMissingField
  {
    var fields :- HGetAll(st, EntityKey(topic, eid));
    if forall k | k in fields :: Resolve(st, fields[k]).Success? then
      Success(map k | k in fields :: Resolve(st, fields[k]).value)
    else
      // every failing Resolve reports HGetMissingField, whichever field the loop meets first
      Failure(HGetMissingField)
  }

  /** DomainModel.retrieve: every indexed entity of the topic, read back. */
  function Retrieve(st: Store, topic: string): (r: Retrieved)
    ensures IndexKey(topic) !in st ==> r == Entities(map[])
    ensures r.Entities? && IndexKey(topic) in st ==>
      st[IndexKey(topic)].RSet? && r.entities.Keys == st[IndexKey(topic)].members
    ensures r.Entities? ==> forall eid | eid in r.entities :: Load(st, topic, eid) == Success(r.entities[eid])
    ensures r.Entities? <==>
      (IndexKey(topic) !in st || st[IndexKey(topic)].RSet?) &&
      (IndexKey(topic) in st ==> forall eid | eid in st[IndexKey(topic)].members :: Load(st, topic, eid).Success?)
    ensures r.Raised? && IndexKey(topic) in st && !st[IndexKey(topic)].RSet? ==> r.possible == {WrongType}
    ensures r.Raised? && IndexKey(topic) in st && st[IndexKey(topic)].RSet? ==>
      forall e :: e in r.possible <==> exists eid | eid in st[IndexKey(topic)].members :: Load(st, topic, eid) == Failure(e)
    ensures r.Raised? ==> r.possible != {} && r.possible <= {WrongType, HGetMissingField}
  {
    match SMembers(st, IndexKey(topic))
    case Failure(e) => Raised({e})
    case Success(ids) =>
      var failing := set eid | eid in ids && Load(st, topic, eid).Failure?;
      if failing == {} then
        assert forall eid | eid in ids :: eid !in failing;
        Entities(map eid | eid in ids :: Load(st, topic, eid).value)
      else
        var errors := set eid | eid in failing :: Load(st, topic, eid).error;
        assert errors != {} by {
          var eid :| eid in failing;
          assert Load(st, topic, eid).error in errors;
        }
        Raised(errors)
  }

  // ---------------------------------------------------------------------------
  // update
  // ---------------------------------------------------------------------------

  /**
    One iteration of update's loop.  `asWritten` selects the source's dict
    branch, whose `hmset(did, *v)` call always raises; otherwise the dict is
    written with `hmset(did, v)` as create does.
   */
  function UpdateField(st: Store, topic: string, id: string, field: string, v: Value, asWritten: bool): (r: Result<Store>)
    ensures r.Success? ==> forall key | key != EntityKey(topic, id) && (v.Scalar? || key != CompositeKey(topic, field, id)) ::
      (key in r.value <==> key in st) && (key in st ==> r.value[key] == st[key])
    ensures WellFormed(st) && r.Success? ==> WellFormed(r.value)
  {
    var entity := EntityKey(topic, id);
    var composite := CompositeKey(topic, field, id);
    match v
    case Scalar(s) => HSet(st, entity, field, s)
    case ListValue(xs) =>
      var st1 :- HSet(st, entity, field, composite);
      RPush(Del(st1, composite), composite, xs)
    case SetValue(xs) =>
      var st1 :- HSet(st, entity, field, composite);
      SAdd(Del(st1, composite), composite, xs)
    case DictValue(m) =>
      var st1 :- HSet(st, entity, field, composite);
      if asWritten then Failure(HMSetArguments) else HMSet(Del(st1, composite), composite, m)
  }

  /** Update's loop over the fields `ks`, stopping at the first error. */
  function UpdateFields(st: Store, topic: string, id: string, rec: Record, ks: seq<string>, asWritten: bool): (r: Result<Store>)
    requires forall k | k in ks :: k in rec.entries
    ensures r.Success? ==> forall key | key != EntityKey(topic, id) && key !in CompositeKeys(topic, id, rec, ks) ::
      (key in r.value <==> key in st) && (key in st ==> r.value[key] == st[key])
    ensures WellFormed(st) && r.Success? ==> WellFormed(r.value)
    decreases |ks|
  {
    if ks == [] then Success(st)
    else
      var st1 :- UpdateField(st, topic, id, ks[0], rec.entries[ks[0]], asWritten);
      UpdateFields(st1, topic, id, rec, ks[1..], asWritten)
  }

  /** Update with the source's dict branch (`asWritten`) or with the evidently intended one. */
  function UpdateWith(st: Store, topic: string, rec: Record, asWritten: bool): (r: Result<Store>)
    ensures rec.order == [] ==> r == Success(st)
    ensures rec.order != [] && EntityIdField !in rec.entries ==> r == Failure(MissingEntityId)
    ensures r.Success? && rec.order != [] ==> EntityIdOf(rec).Success?
    ensures r.Success? ==> (IndexKey(topic) in r.value <==> IndexKey(topic) in st)
    ensures r.Success? && IndexKey(topic) in st ==> r.value[IndexKey(topic)] == st[IndexKey(topic)]
    ensures r.Success? && rec.order != [] ==>
      forall key | key != EntityKey(topic, EntityIdOf(rec).value) && key !in CompositeKeys(topic, EntityIdOf(rec).value, rec, rec.order) ::
        (key in r.value <==> key in st) && (key in st ==> r.value[key] == st[key])
    ensures WellFormed(st) && r.Success? ==> WellFormed(r.value)
  {
    if rec.order == [] then Success(st)
    else
      assert rec.order[0] in rec.entries;
      var id :- EntityIdOf(rec);
      IndexKeyUntouched(topic, id, rec, rec.order);
      UpdateFields(st, topic, id, rec, rec.order, asWritten)
  }

  /** DomainModel.update with `hmset(did, v)` in its dict branch. */
  function Update(st: Store, topic: string, rec: Record): (r: Result<Store>)
    ensures r.Success? ==> (IndexKey(topic) in r.value <==> IndexKey(topic) in st)
    ensures r.Success? && IndexKey(topic) in st ==> r.value[IndexKey(topic)] == st[IndexKey(topic)]
  {
    UpdateWith(st, topic, rec, false)
  }

  /** DomainModel.update as written: its dict branch calls `hmset(did, *v)`. */
  function UpdateAsWritten(st: Store, topic: string, rec: Record): (r: Result<Store>)
    ensures r.Success? ==> (IndexKey(topic) in r.value <==> IndexKey(topic) in st)
    ensures r.Success? && IndexKey(topic) in st ==> r.value[IndexKey(topic)] == st[IndexKey(topic)]
  {
    UpdateWith(st, topic, rec, true)
  }

  // ---------------------------------------------------------------------------
  // delete
  // ---------------------------------------------------------------------------

  /** Delete's loop: drop the composite key of every list, set or dict field among `ks`. */
  function DeleteComposites(st: Store, topic: string, id: string, rec: Record, ks: seq<string>): (r: Store)
    requires forall k | k in ks :: k in rec.entries
    ensures r == st - CompositeKeys(topic, id, rec, ks)
    decreases |ks|
  {
    if ks == [] then st
    else
      var st1 := if rec.entries[ks[0]].IsComposite() then Del(st, CompositeKey(topic, ks[0], id)) else st;
      DeleteComposites(st1, topic, id, rec, ks[1..])
  }

  /**
    `after` is `before` with the members `unindexed` taken out of the topic's
    index set (which goes when it empties), and with the entity's hash and the
    composite keys of `rec`'s list, set and dict fields removed.  No other key
    differs.
   */
  ghost predicate DeletedFrom(before: Store, after: Store, topic: string, id: string, rec: Record, unindexed: set<string>) {
    var index := IndexKey(topic);
    && (forall key | key != index ::
          && (key in after <==> key in before && key != EntityKey(topic, id) && key !in CompositeKeys(topic, id, rec, rec.order))
          && (key in after ==> after[key] == before[key]))
    && (index in before ==> before[index].RSet?)
    && (index in after <==> index in before && before[index].members - unindexed != {})
    && (index in after ==> after[index] == RSet(before[index].members - unindexed))
  }

  /** DomainModel.delete as written: `srem(ids, 1, id)` also drops the member "1" from the index. */
  function DeleteAsWritten(st: Store, topic: string, rec: Record): (r: Result<Store>)
    ensures EntityIdField !in rec.entries ==> r == Failure(MissingEntityId)
    ensures r.Success? <==> EntityIdOf(rec).Success? && (IndexKey(topic) !in st || st[IndexKey(topic)].RSet?)
    ensures r.Success? ==> DeletedFrom(st, r.value, topic, EntityIdOf(rec).value, rec, {"1", EntityIdOf(rec).value})
    ensures WellFormed(st) && r.Success? ==> WellFormed(r.value)
  {
    var id :- EntityIdOf(rec);
    var st1 :- SRem(st, IndexKey(topic), {"1", id});
    IndexKeyUntouched(topic, id, rec, rec.order);
    Success(DeleteComposites(Del(st1, EntityKey(topic, id)), topic, id, rec, rec.order))
  }

  /** DomainModel.delete with the index removal it evidently intends: `srem(ids, id)`. */
  function Delete(st: Store, topic: string, rec: Record): (r: Result<Store>)
    ensures EntityIdField !in rec.entries ==> r == Failure(MissingEntityId)
    ensures r.Success? <==> EntityIdOf(rec).Success? && (IndexKey(topic) !in st || st[IndexKey(topic)].RSet?)
    ensures r.Success? ==> DeletedFrom(st, r.value, topic, EntityIdOf(rec).value, rec, {EntityIdOf(rec).value})
    ensures WellFormed(st) && r.Success? ==> WellFormed(r.value)
  {
    var id :- EntityIdOf(rec);
    var st1 :- SRem(st, IndexKey(topic), {id});
    IndexKeyUntouched(topic, id, rec, rec.order);
    Success(DeleteComposites(Del(st1, EntityKey(topic, id)), topic, id, rec, rec.order))
  }

  // ---------------------------------------------------------------------------
  // exists
  // ---------------------------------------------------------------------------

  /** Python truthiness of the optional id: None and "" are false. */
  predicate Truthy(id: Option<string>) {
    id.Some? && id.value != ""
  }

  /** DomainModel.exists */
  function Exists(st: Store, topic: string, id: Option<string>): (r: Result<bool>)
    ensures IndexKey(topic) !in st ==> r == Success(false)
    ensures IndexKey(topic) in st && !Truthy(id) ==> r == Success(true)
    ensures IndexKey(topic) in st && Truthy(id) ==> (r.Success? <==> st[IndexKey(topic)].RSet?)
    ensures IndexKey(topic) in st && Truthy(id) && r.Success? ==> (r.value <==> id.value in st[IndexKey(topic)].members)
    ensures r.Failure? ==> r.error == WrongType
  {
    if IndexKey(topic) in st then  // EXISTS {topic}_ids
      if !Truthy(id) then Success(true) else SIsMember(st, IndexKey(topic), id.value)
    else Success(false)
  }
}

=== FILE: keys.dfy ===
/**
  The key-naming scheme and the reference heuristic.

  A topic's index set lives at `{topic}_ids`, an entity's hash at
  `{topic}_entity:{id}`, and the contents of its list, set or dict field
  `field` at `{topic}_{field}:{id}`.  A string read back from an entity hash
  is taken to name such a key when it contains both `_` and `:`.
 */
module Keys {

  /** The reference heuristic: a value is looked up as a key when it holds both separators. */
  predicate IsKey(value: string) {
    '_' in value && ':' in value
  }

  /** The topic's index set: the topic followed by a suffix that adds no colon. */
  function IndexKey(topic: string): (r: string)
    ensures |r| == |topic| + 4
    ensures IsKey(r) <==> ':' in topic
  {
    var r := topic + "_ids";
    assert r[|topic|] == '_';
    assert forall i | |topic| <= i < |r| :: r[i] != ':';
    assert ':' in r ==> ':' in topic by {
      if ':' in r {
        var i :| 0 <= i < |r| && r[i] == ':';
        assert r[i] == topic[i];
      }
    }
    r
  }

  /** An entity's hash: eight characters beyond topic and id, and it reads as a key. */
  function EntityKey(topic: string, id: string): (r: string)
    ensures |r| == |topic| + |id| + 8
    ensures IsKey(r)
  {
    var r := topic + "_entity:" + id;
    assert r[|topic|] == '_' && r[|topic| + 7] == ':';
    r
  }

  /** A field's own key: two separators beyond topic, field and id, and it reads as a key. */
  function CompositeKey(topic: string, field: string, id: string): (r: string)
    ensures |r| == |topic| + |field| + |id| + 2
    ensures IsKey(r)
  {
    var r := topic + "_" + field + ":" + id;
    assert r[|topic|] == '_' && r[|topic| + 1 + |field|] == ':';
    r
  }

  /** Every composite key name passes the reference heuristic. */
  lemma CompositeKeyIsKey(topic: string, field: string, id: string)
    ensures IsKey(CompositeKey(topic, field, id))
  {
    var s := CompositeKey(topic, field, id);
    assert s[|topic|] == '_';
    assert s[|topic| + 1 + |field|] == ':';
  }

  /** The entity hash's name is the composite key of a field called "entity". */
  lemma EntityKeyIsCompositeKey(topic: string, id: string)
    ensures EntityKey(topic, id) == CompositeKey(topic, "entity", id)
  {
    assert topic + "_entity:" + id == topic + "_" + "entity" + ":" + id;
  }

  /** Distinct fields of one entity get distinct composite keys. */
  lemma CompositeKeyInjective(topic: string, field1: string, field2: string, id: string)
    requires CompositeKey(topic, field1, id) == CompositeKey(topic, field2, id)
    ensures field1 == field2
  {
    var s := CompositeKey(topic, field1, id);
    var t := CompositeKey(topic, field2, id);
    assert |field1| == |field2| by {
      assert |s| == |topic| + |field1| + 2 + |id|;
      assert |t| == |topic| + |field2| + 2 + |id|;
    }
    var lo := |topic| + 1;
    assert s[lo..lo + |field1|] == field1;
    assert t[lo..lo + |field2|] == field2;
  }

  /** A composite key is the entity hash's key exactly when the field is "entity". */
  lemma CompositeKeyIsEntityKey(topic: string, field: string, id: string)
    ensures CompositeKey(topic, field, id) == EntityKey(topic, id) <==> field == "entity"
  {
    EntityKeyIsCompositeKey(topic, id);
    if CompositeKey(topic, field, id) == EntityKey(topic, id) {
      CompositeKeyInjective(topic, field, "entity", id);
    }
  }

  /** The index set's key is never an entity or composite key of the same topic. */
  lemma IndexKeyIsNoCompositeKey(topic: string, field: string, id: string)
    ensures IndexKey(topic) != CompositeKey(topic, field, id)
    ensures IndexKey(topic) != EntityKey(topic, id)
  {
    EntityKeyIsCompositeKey(topic, id);
    var s := CompositeKey(topic, field, id);
    var n := |topic| + 1 + |field|;
    assert s[n] == ':';
    assert forall i | |topic| <= i < |IndexKey(topic)| :: IndexKey(topic)[i] != ':';
  }
}

=== FILE: layout.dfy ===
/**
  Reference definitions of what create and update leave in the store: the
  strings of the entity hash, and the contents of each composite key.  The
  property modules compare the operations against these.
 */
module Layout {
  import opened Store
  import opened Keys
  import opened DomainModel

  /** The entity hash create and update write for the fields `ks` of `rec`. */
  function EntryMap(topic: string, id: string, rec: Record, ks: seq<string>): (h: map<string, string>)
    requires forall k | k in ks :: k in rec.entries
    ensures forall k :: k in h <==> k in ks
  {
    map k | k in ks :: HashEntry(topic, id, k, rec.entries[k])
  }

  /** The fields of the hash at `key`, or none. */
  function HashAt(st: Store, key: string): map<string, string> {
    if key in st && st[key].RHash? then st[key].fields else map[]
  }

  /** A list, set or dict value as it sits under a key of its own. */
  function Stored(v: Value): (d: Data)
    requires v.IsComposite()
  {
    match v
    case ListValue(xs) => RList(xs)
    case SetValue(xs) => RSet(xs)
    case DictValue(m) => RHash(m)
  }

  /** What RPUSH, SADD or HMSET of `v` leave at `key`: `v` appended to what `key` held. */
  function Appended(st: Store, key: string, v: Value): Data
    requires v.IsComposite()
  {
    match v
    case ListValue(xs) => RList((if key in st && st[key].RList? then st[key].items else []) + xs)
    case SetValue(xs) => RSet((if key in st && st[key].RSet? then st[key].members else {}) + xs)
    case DictValue(m) => RHash((if key in st && st[key].RHash? then st[key].fields else map[]) + m)
  }

  /** `key` is absent or of the kind `v` is appended to (scalars are not written there). */
  predicate Fits(st: Store, key: string, v: Value) {
    key !in st ||
    match v
    case Scalar(_) => true
    case ListValue(_) => st[key].RList?
    case SetValue(_) => st[key].RSet?
    case DictValue(_) => st[key].RHash?
  }

  /** The store accepts `v`: composites are non-empty and do not reuse the entity hash's key. */
  predicate StorableField(field: string, v: Value) {
    match v
    case Scalar(_) => true
    case ListValue(xs) => field != "entity" && xs != []
    case SetValue(xs) => field != "entity" && xs != {}
    case DictValue(m) => field != "entity" && m != map[]
  }

  /** A list, set or dict with nothing in it: RPUSH and SADD get no values, HMSET an empty mapping. */
  predicate EmptyCollection(v: Value) {
    v == ListValue([]) || v == SetValue({}) || v == DictValue(map[])
  }

  predicate Storable(rec: Record) {
    forall k | k in rec.entries :: StorableField(k, rec.entries[k])
  }

  /** No scalar field looks like a key to the reference heuristic. */
  predicate Unambiguous(rec: Record) {
    forall k | k in rec.entries && rec.entries[k].Scalar? :: !IsKey(rec.entries[k].text)
  }

  /** The entity's hash is absent or a hash. */
  predicate EntityHashUsable(st: Store, topic: string, id: string) {
    EntityKey(topic, id) !in st || st[EntityKey(topic, id)].RHash?
  }

  /** Appending to an absent key stores the value itself. */
  lemma AppendedToAbsent(st: Store, key: string, v: Value)
    requires v.IsComposite() && key !in st
    ensures Appended(st, key, v) == Stored(v)
  {
  }

  /** Extending an absent hash gives the extension itself. */
  lemma HashAtAbsent(st: Store, key: string, h: map<string, string>)
    requires key !in st
    ensures HashAt(st, key) + h == h
  {
  }

  /** A key holding a hash reads back as that hash's fields. */
  lemma HashAtPresent(st: Store, key: string, h: map<string, string>)
    requires key in st && st[key] == RHash(h)
    ensures HashAt(st, key) == h
  {
  }

  /** A record's insertion order lists its fields once each. */
  lemma OrderDistinct(rec: Record)
    ensures Distinct(rec.order)
    ensures forall k :: k in rec.entries <==> k in rec.order
  {
  }

  /** A value stored under a key of its own reads back unchanged. */
  lemma ResolveStored(st: Store, key: string, v: Value)
    requires v.IsComposite() && IsKey(key)
    requires key in st && st[key] == Stored(v)
    ensures Resolve(st, key) == Success(v)
  {
  }

  /** A field written by create or update reads back as itself when its composite key holds it and its string does not look like a key. */
  lemma FieldReadsBack(st: Store, topic: string, id: string, field: string, v: Value)
    requires v.Scalar? ==> !IsKey(v.text)
    requires v.IsComposite() ==> CompositeKey(topic, field, id) in st && st[CompositeKey(topic, field, id)] == Stored(v)
    ensures Resolve(st, HashEntry(topic, id, field, v)) == Success(v)
  {
    if v.IsComposite() {
      CompositeKeyIsKey(topic, field, id);
      ResolveStored(st, CompositeKey(topic, field, id), v);
    }
  }

  /** An entity hash whose every string resolves to the matching field of `entity` loads as `entity`. */
  lemma LoadResolved(st: Store, topic: string, id: string, entity: map<string, Value>)
    requires EntityKey(topic, id) in st && st[EntityKey(topic, id)].RHash?
    requires st[EntityKey(topic, id)].fields.Keys == entity.Keys
    requires forall k | k in entity :: Resolve(st, st[EntityKey(topic, id)].fields[k]) == Success(entity[k])
    ensures Load(st, topic, id) == Success(entity)
  {
    var fields := st[EntityKey(topic, id)].fields;
    assert (map k | k in fields :: Resolve(st, fields[k]).value) == entity;
  }

  /** One string of the entity hash that does not resolve makes the whole load fail. */
  lemma LoadUnresolved(st: Store, topic: string, id: string, field: string)
    requires EntityKey(topic, id) in st && st[EntityKey(topic, id)].RHash?
    requires field in st[EntityKey(topic, id)].fields
    requires Resolve(st, st[EntityKey(topic, id)].fields[field]).Failure?
    ensures Load(st, topic, id) == Failure(HGetMissingField)
  {
  }

  /** The composite key of a storable field is not the entity hash. */
  lemma StorableCompositeKey(topic: string, id: string, field: string, v: Value)
    requires v.IsComposite() && StorableField(field, v)
    ensures CompositeKey(topic, field, id) != EntityKey(topic, id)
  {
    CompositeKeyIsEntityKey(topic, field, id);
  }

  /** A field outside `ks`, or a scalar one, has no composite key among those of `ks`. */
  lemma {:induction false} CompositeKeyOutside(topic: string, id: string, rec: Record, ks: seq<string>, field: string)
    requires forall k | k in ks :: k in rec.entries
    requires field in ks ==> rec.entries[field].Scalar?
    ensures CompositeKey(topic, field, id) !in CompositeKeys(topic, id, rec, ks)
    decreases |ks|
  {
    if ks != [] {
      if rec.entries[ks[0]].IsComposite() && CompositeKey(topic, ks[0], id) == CompositeKey(topic, field, id) {
        CompositeKeyInjective(topic, ks[0], field, id);
        assert false;
      }
      CompositeKeyOutside(topic, id, rec, ks[1..], field);
    }
  }
}

=== FILE: scenarios.dfy ===
/** Concrete cases of the model on small stores. */
module Scenarios {
  import opened Store
  import opened Keys
  import opened DomainModel
  import opened CreateProperties

  /** Creating user "1" with a name and a set of roles in an empty store, then retrieving the topic, gives back that user. */
  lemma CreateRetrieveExample()
    ensures var rec: Record := Dict(map["entity_id" := Scalar("1"), "name" := Scalar("Alice"),
                                        "roles" := SetValue({"admin", "ops"})],
                                    ["entity_id", "name", "roles"]);
            && Create(map[], "user", rec).Success?
            && Retrieve(Create(map[], "user", rec).value, "user") == Entities(map["1" := rec.entries])
  {
    var rec: Record := Dict(map["entity_id" := Scalar("1"), "name" := Scalar("Alice"),
                                "roles" := SetValue({"admin", "ops"})],
                            ["entity_id", "name", "roles"]);
    assert !IsKey("1") && !IsKey("Alice") by {
      assert forall i | 0 <= i < |"Alice"| :: "Alice"[i] != '_';
    }
    RetrieveAfterCreateOnEmptyStore("user", rec);
  }

  /** A note that happens to read like a key is looked up instead of returned, and the lookup fails. */
  lemma MisreadExample()
    ensures var rec: Record := Dict(map["entity_id" := Scalar("1"), "note" := Scalar("a_b:c")],
                                    ["entity_id", "note"]);
            && Create(map[], "user", rec).Success?
            && Load(Create(map[], "user", rec).value, "user", "1") == Failure(HGetMissingField)
  {
    var rec: Record := Dict(map["entity_id" := Scalar("1"), "note" := Scalar("a_b:c")],
                            ["entity_id", "note"]);
    assert IsKey("a_b:c") by { assert "a_b:c"[1] == '_' && "a_b:c"[3] == ':'; }
    assert CompositeKeys("user", "1", rec, rec.order) == {};
    assert "a_b:c" != IndexKey("user") && "a_b:c" != EntityKey("user", "1");
    KeyShapedScalarIsMisread(map[], "user", rec, "note");
  }
}

=== FILE: store.dfy ===
/**
  An abstract Redis server: a map from key to the value stored there, and the
  handful of commands the domain model issues, each as a pure function.

  Redis never keeps an empty list, set or hash: pushing or adding nothing is
  refused, and removing the last member of a set removes the key.  The
  predicate `WellFormed` states this and every command preserves it.
 */
module Store {

  /** The ways a command can be refused, by the server or by the client library. */
  datatype Error =
    | WrongType        // the server's WRONGTYPE reply: the key holds another kind of value
    | WrongArity       // the server's "wrong number of arguments": RPUSH or SADD with no values
    | EmptyMapping     // the client refuses HMSET with an empty mapping
    | InvalidInput     // the client refuses a list, set or dict as a command argument
    | MissingEntityId  // the record has no entity_id field (a KeyError)
    | HGetMissingField // hget(v) called without its field argument (a TypeError)
    | HMSetArguments   // hmset(did, *v) does not match the signature hmset(name, mapping)

  datatype Result<+T> = Success(value: T) | Failure(error: Error) {

    predicate IsFailure() {
      Failure?
    }

    function PropagateFailure<U>(): Result<U>
      requires Failure?
    {
      Failure(error)
    }

    function Extract(): T
      requires Success?
    {
      value
    }
  }

  /** The four native kinds of value the model uses. */
  datatype Data =
    | RString(text: string)
    | RList(items: seq<string>)
    | RSet(members: set<string>)
    | RHash(fields: map<string, string>)

  type Store = map<string, Data>

  predicate NonEmpty(d: Data) {
    match d
    case RString(_) => true
    case RList(xs) => xs != []
    case RSet(xs) => xs != {}
    case RHash(h) => h != map[]
  }

  /** No key holds an empty collection. */
  predicate WellFormed(st: Store) {
    forall key | key in st :: NonEmpty(st[key])
  }

  /** TYPE key */
  function TypeName(st: Store, key: string): (r: string)
    ensures r == "none" <==> key !in st
    ensures r == "list" <==> key in st && st[key].RList?
    ensures r == "set" <==> key in st && st[key].RSet?
    ensures r == "hash" <==> key in st && st[key].RHash?
  {
    if key !in st then "none"
    else
      match st[key]
      case RString(_) => "string"
      case RList(_) => "list"
      case RSet(_) => "set"
      case RHash(_) => "hash"
  }

  /** DEL key */
  function Del(st: Store, key: string): (r: Store)
    ensures key !in r
    ensures forall k | k != key :: (k in r <==> k in st) && (k in r ==> r[k] == st[k])
    ensures WellFormed(st) ==> WellFormed(r)
  {
    st - {key}
  }

  /** SADD key member... */
  function SAdd(st: Store, key: string, members: set<string>): (r: Result<Store>)
    ensures r.Success? <==> members != {} && (key !in st || st[key].RSet?)
    ensures r.Success? ==> key in r.value && r.value[key].RSet?
    ensures r.Success? ==> members <= r.value[key].members
    ensures r.Success? && key in st ==> st[key].members <= r.value[key].members
    ensures r.Success? ==> r.value[key].members == (if key in st then st[key].members else {}) + members
    ensures r.Success? ==> forall k | k != key :: (k in r.value <==> k in st) && (k in st ==> r.value[k] == st[k])
    ensures WellFormed(st) && r.Success? ==> WellFormed(r.value)
  {
    if members == {} then Failure(WrongArity)
    else if key !in st then Success(st[key := RSet(members)])
    else
      match st[key]
      case RSet(prior) => Success(st[key := RSet(prior + members)])
      case _ => Failure(WrongType)
  }

  /** SREM key member...; the key disappears with its last member. */
  function SRem(st: Store, key: string, members: set<string>): (r: Result<Store>)
    ensures r.Success? <==> key !in st || st[key].RSet?
    ensures r.Success? ==> forall k | k != key :: (k in r.value <==> k in st) && (k in st ==> r.value[k] == st[k])
    ensures r.Success? ==> (key in r.value <==> key in st && st[key].members - members != {})
    ensures r.Success? && key in r.value ==> r.value[key] == RSet(st[key].members - members)
    ensures WellFormed(st) && r.Success? ==> WellFormed(r.value)
  {
    if key !in st then Success(st)
    else
      match st[key]
      case RSet(prior) =>
        if prior - members == {} then Success(st - {key}) else Success(st[key := RSet(prior - members)])
      case _ => Failure(WrongType)
  }

  /** SMEMBERS key */
  function SMembers(st: Store, key: string): (r: Result<set<string>>)
    ensures key !in st ==> r == Success({})
    ensures key in st ==> (r.Success? <==> st[key].RSet?)
    ensures key in st && r.Success? ==> r.value == st[key].members
    ensures r.Failure? ==> r.error == WrongType
  {
    if key !in st then Success({})
    else if st[key].RSet? then Success(st[key].members)
    else Failure(WrongType)
  }

  /** SISMEMBER key member */
  function SIsMember(st: Store, key: string, member: string): (r: Result<bool>)
    ensures key !in st ==> r == Success(false)
    ensures key in st ==> (r.Success? <==> st[key].RSet?)
    ensures key in st && r.Success? ==> (r.value <==> member in st[key].members)
    ensures r.Failure? ==> r.error == WrongType
  {
    if key !in st then Success(false)
    else if st[key].RSet? then Success(member in st[key].members)
    else Failure(WrongType)
  }

  /** HSET key field value */
  function HSet(st: Store, key: string, field: string, value: string): (r: Result<Store>)
    ensures r.Success? <==> key !in st || st[key].RHash?
    ensures r.Success? ==> key in r.value && r.value[key].RHash?
    ensures r.Success? ==> r.value[key].fields == (if key in st then st[key].fields else map[])[field := value]
    ensures r.Success? ==> forall k | k != key :: (k in r.value <==> k in st) && (k in st ==> r.value[k] == st[k])
    ensures WellFormed(st) && r.Success? ==> WellFormed(r.value)
  {
    if key !in st then
      assert field in map[field := value];
      Success(st[key := RHash(map[field := value])])
    else
      match st[key]
      case RHash(h) =>
        assert field in h[field := value];
        Success(st[key := RHash(h[field := value])])
      case _ => Failure(WrongType)
  }

  /** HMSET key mapping */
  function HMSet(st: Store, key: string, mapping: map<string, string>): (r: Result<Store>)
    ensures r.Success? <==> mapping != map[] && (key !in st || st[key].RHash?)
    ensures r.Success? ==> key in r.value && r.value[key].RHash?
    ensures r.Success? ==> r.value[key].fields == (if key in st then st[key].fields else map[]) + mapping
    ensures r.Success? ==> forall k | k != key :: (k in r.value <==> k in st) && (k in st ==> r.value[k] == st[k])
    ensures WellFormed(st) && r.Success? ==> WellFormed(r.value)
  {
    if mapping == map[] then Failure(EmptyMapping)
    else if key !in st then Success(st[key := RHash(mapping)])
    else
      match st[key]
      case RHash(h) => Success(st[key := RHash(h + mapping)])
      case _ => Failure(WrongType)
  }

  /** HGETALL key */
  function HGetAll(st: Store, key: string): (r: Result<map<string, string>>)
    ensures key !in st ==> r == Success(map[])
    ensures key in st ==> (r.Success? <==> st[key].RHash?)
    ensures key in st && r.Success? ==> r.value == st[key].fields
    ensures r.Failure? ==> r.error == WrongType
  {
    if key !in st then Success(map[])
    else if st[key].RHash? then Success(st[key].fields)
    else Failure(WrongType)
  }

  /** RPUSH key value... */
  function RPush(st: Store, key: string, values: seq<string>): (r: Result<Store>)
    ensures r.Success? <==> values != [] && (key !in st || st[key].RList?)
    ensures r.Success? ==> key in r.value && r.value[key].RList?
    ensures r.Success? ==> r.value[key].items == (if key in st then st[key].items else []) + values
    ensures r.Success? ==> forall k | k != key :: (k in r.value <==> k in st) && (k in st ==> r.value[k] == st[k])
    ensures WellFormed(st) && r.Success? ==> WellFormed(r.value)
  {
    if values == [] then Failure(WrongArity)
    else if key !in st then Success(st[key := RList(values)])
    else
      match st[key]
      case RList(prior) => Success(st[key := RList(prior + values)])
      case _ => Failure(WrongType)
  }

  /** LRANGE key 0 -1: the whole list. */
  function LRangeAll(st: Store, key: string): (r: Result<seq<string>>)
    ensures key !in st ==> r == Success([])
    ensures key in st ==> (r.Success? <==> st[key].RList?)
    ensures key in st && r.Success? ==> r.value == st[key].items
    ensures r.Failure? ==> r.error == WrongType
  {
    if key !in st then Success([])
    else if st[key].RList? then Success(st[key].items)
    else Failure(WrongType)
  }
}

=== FILE: update_properties.dfy ===
/**
  What update writes: every list, set or dict field's key is replaced
  outright, the index set is left alone, and the two dict branches (as
  written and as intended) part ways.
 */
module UpdateProperties {
  import opened Store
  import opened Keys
  import opened DomainModel
  import opened Layout
  import opened CreateProperties

  /** One field: the entity hash gains its entry and its composite key holds exactly its contents. */
  lemma UpdateFieldEffect(st: Store, topic: string, id: string, field: string, v: Value, asWritten: bool)
    requires EntityHashUsable(st, topic, id)
    requires StorableField(field, v)
    requires asWritten ==> !v.DictValue?
    ensures UpdateField(st, topic, id, field, v, asWritten).Success?
    ensures EntityKey(topic, id) in UpdateField(st, topic, id, field, v, asWritten).value
    ensures UpdateField(st, topic, id, field, v, asWritten).value[EntityKey(topic, id)]
         == RHash(HashAt(st, EntityKey(topic, id))[field := HashEntry(topic, id, field, v)])
    ensures v.IsComposite() ==>
      && CompositeKey(topic, field, id) in UpdateField(st, topic, id, field, v, asWritten).value
      && UpdateField(st, topic, id, field, v, asWritten).value[CompositeKey(topic, field, id)] == Stored(v)
  {
    if v.IsComposite() {
      StorableCompositeKey(topic, id, field, v);
    }
  }

  /**
    Update's loop over distinct fields the store accepts: the entity hash
    holds what it held plus one entry per field, and every composite key
    holds exactly its field's new contents, whatever it held before.
   */
  lemma {:induction false} UpdateFieldsEffect(st: Store, topic: string, id: string, rec: Record, ks: seq<string>, asWritten: bool)
    requires forall k | k in ks :: k in rec.entries
    requires Distinct(ks)
    requires EntityHashUsable(st, topic, id)
    requires forall k | k in ks :: StorableField(k, rec.entries[k]) && (asWritten ==> !rec.entries[k].DictValue?)
    ensures UpdateFields(st, topic, id, rec, ks, asWritten).Success?
    ensures ks != [] || EntityKey(topic, id) in st ==>
      && EntityKey(topic, id) in UpdateFields(st, topic, id, rec, ks, asWritten).value
      && UpdateFields(st, topic, id, rec, ks, asWritten).value[EntityKey(topic, id)]
         == RHash(HashAt(st, EntityKey(topic, id)) + EntryMap(topic, id, rec, ks))
    ensures forall k | k in ks && rec.entries[k].IsComposite() ::
      && CompositeKey(topic, k, id) in UpdateFields(st, topic, id, rec, ks, asWritten).value
      && UpdateFields(st, topic, id, rec, ks, asWritten).value[CompositeKey(topic, k, id)] == Stored(rec.entries[k])
    decreases |ks|
  {
    if ks != [] {
      var entity := EntityKey(topic, id);
      var k0, v0, rest := ks[0], rec.entries[ks[0]], ks[1..];
      assert Distinct(rest) && k0 !in rest by {
        assert forall i | 0 <= i < |rest| :: rest[i] == ks[i + 1];
      }
      UpdateFieldEffect(st, topic, id, k0, v0, asWritten);
      var st1 := UpdateField(st, topic, id, k0, v0, asWritten).value;
      UpdateFieldsEffect(st1, topic, id, rec, rest, asWritten);
      var r := UpdateFields(st1, topic, id, rec, rest, asWritten).value;
      assert UpdateFields(st, topic, id, rec, ks, asWritten) == Success(r);
      EntryMapCons(topic, id, rec, ks, HashAt(st, entity));
      forall k | k in ks && rec.entries[k].IsComposite()
        ensures CompositeKey(topic, k, id) in r
        ensures r[CompositeKey(topic, k, id)] == Stored(rec.entries[k])
      {
        if k == k0 {
          StorableCompositeKey(topic, id, k0, v0);
          CompositeKeyOutside(topic, id, rec, rest, k0);
        }
      }
    }
  }

  /**
    Update replaces composites completely: for a record the store accepts,
    each list, set or dict field's key afterwards holds exactly the new
    contents, and the entity hash holds the new entry for every field.
   */
  lemma UpdateReplacesComposites(st: Store, topic: string, rec: Record)
    requires EntityIdOf(rec).Success? && Storable(rec)
    requires EntityHashUsable(st, topic, EntityIdOf(rec).value)
    ensures Update(st, topic, rec).Success?
    ensures EntityKey(topic, EntityIdOf(rec).value) in Update(st, topic, rec).value
    ensures Update(st, topic, rec).value[EntityKey(topic, EntityIdOf(rec).value)]
         == RHash(HashAt(st, EntityKey(topic, EntityIdOf(rec).value)) + EntryMap(topic, EntityIdOf(rec).value, rec, rec.order))
    ensures forall k | k in rec.entries && rec.entries[k].IsComposite() ::
      && CompositeKey(topic, k, EntityIdOf(rec).value) in Update(st, topic, rec).value
      && Update(st, topic, rec).value[CompositeKey(topic, k, EntityIdOf(rec).value)] == Stored(rec.entries[k])
  {
    var id := EntityIdOf(rec).value;
    OrderDistinct(rec);
    assert rec.order != [] by {
      assert EntityIdField in rec.order;
    }
    assert Update(st, topic, rec) == UpdateFields(st, topic, id, rec, rec.order, false);
    UpdateFieldsEffect(st, topic, id, rec, rec.order, false);
  }

  /**
    Update overrides fields: after creating `first` into a store holding
    nothing for it and updating with `second` (same entity_id), loading the
    entity yields `first`'s fields overridden by `second`'s.
   */
  lemma LoadAfterUpdate(st: Store, topic: string, first: Record, second: Record)
    requires EntityIdOf(first).Success? && Storable(first) && Unambiguous(first) && Fresh(st, topic, first)
    requires EntityIdOf(second) == EntityIdOf(first) && Storable(second) && Unambiguous(second)
    ensures Create(st, topic, first).Success?
    ensures Update(Create(st, topic, first).value, topic, second).Success?
    ensures Load(Update(Create(st, topic, first).value, topic, second).value, topic, EntityIdOf(first).value)
         == Success(first.entries + second.entries)
  {
    var id := EntityIdOf(first).value;
    var entity := EntityKey(topic, id);
    CreateFresh(st, topic, first);
    var st1 := Create(st, topic, first).value;
    UpdateReplacesComposites(st1, topic, second);
    var st2 := Update(st1, topic, second).value;
    var e1, e2 := EntryMap(topic, id, first, first.order), EntryMap(topic, id, second, second.order);
    HashAtPresent(st1, entity, e1);
    var fields := e1 + e2;
    assert st2[entity] == RHash(fields);
    var merged := first.entries + second.entries;
    assert fields.Keys == merged.Keys;
    forall k | k in merged
      ensures Resolve(st2, fields[k]) == Success(merged[k])
    {
      if k in second.entries {
        FieldReadsBack(st2, topic, id, k, second.entries[k]);
      } else {
        var v := first.entries[k];
        if v.IsComposite() {
          StorableCompositeKey(topic, id, k, v);
          CompositeKeyOutside(topic, id, second, second.order, k);
        }
        FieldReadsBack(st2, topic, id, k, v);
      }
    }
    LoadResolved(st2, topic, id, merged);
  }

  /** Update as written and as intended differ only on dict fields. */
  lemma {:induction false} UpdateFieldsAgreeWithoutDicts(st: Store, topic: string, id: string, rec: Record, ks: seq<string>)
    requires forall k | k in ks :: k in rec.entries && !rec.entries[k].DictValue?
    ensures UpdateFields(st, topic, id, rec, ks, true) == UpdateFields(st, topic, id, rec, ks, false)
    decreases |ks|
  {
    if ks != [] {
      assert UpdateField(st, topic, id, ks[0], rec.entries[ks[0]], true) == UpdateField(st, topic, id, ks[0], rec.entries[ks[0]], false);
      var r := UpdateField(st, topic, id, ks[0], rec.entries[ks[0]], false);
      if r.Success? {
        UpdateFieldsAgreeWithoutDicts(r.value, topic, id, rec, ks[1..]);
      }
    }
  }

  /** For records without dict fields the source's update is the intended one. */
  lemma UpdateAsWrittenWithoutDicts(st: Store, topic: string, rec: Record)
    requires forall k | k in rec.entries :: !rec.entries[k].DictValue?
    ensures UpdateAsWritten(st, topic, rec) == Update(st, topic, rec)
  {
    if rec.order != [] && EntityIdOf(rec).Success? {
      UpdateFieldsAgreeWithoutDicts(st, topic, EntityIdOf(rec).value, rec, rec.order);
    }
  }

  /** The source's loop fails once it meets a dict field, if not before. */
  lemma {:induction false} UpdateFieldsAsWrittenFailOnDict(st: Store, topic: string, id: string, rec: Record, ks: seq<string>, field: string)
    requires forall k | k in ks :: k in rec.entries
    requires field in ks && rec.entries[field].DictValue?
    ensures UpdateFields(st, topic, id, rec, ks, true).Failure?
    decreases |ks|
  {
    var r := UpdateField(st, topic, id, ks[0], rec.entries[ks[0]], true);
    if ks[0] != field && r.Success? {
      UpdateFieldsAsWrittenFailOnDict(r.value, topic, id, rec, ks[1..], field);
    }
  }

  /** Update's loop fails once it meets an empty list, set or dict, if not before. */
  lemma {:induction false} UpdateFieldsRefuseEmpty(st: Store, topic: string, id: string, rec: Record, ks: seq<string>, field: string, asWritten: bool)
    requires forall k | k in ks :: k in rec.entries
    requires field in ks && EmptyCollection(rec.entries[field])
    ensures UpdateFields(st, topic, id, rec, ks, asWritten).Failure?
    decreases |ks|
  {
    var r := UpdateField(st, topic, id, ks[0], rec.entries[ks[0]], asWritten);
    if ks[0] != field && r.Success? {
      UpdateFieldsRefuseEmpty(r.value, topic, id, rec, ks[1..], field, asWritten);
    }
  }

  /** Update, as written or corrected, raises on a record with an empty list, set or dict field. */
  lemma UpdateRefusesEmpty(st: Store, topic: string, rec: Record, field: string, asWritten: bool)
    requires field in rec.entries && EmptyCollection(rec.entries[field])
    ensures UpdateWith(st, topic, rec, asWritten).Failure?
  {
    assert rec.order != [];
    if EntityIdOf(rec).Success? {
      UpdateFieldsRefuseEmpty(st, topic, EntityIdOf(rec).value, rec, rec.order, field, asWritten);
    }
  }

  /** Update, as written or corrected, raises WRONGTYPE when the entity's key holds something other than a hash. */
  lemma UpdateEntityHashWrongType(st: Store, topic: string, rec: Record, asWritten: bool)
    requires EntityIdOf(rec).Success? && !EntityHashUsable(st, topic, EntityIdOf(rec).value)
    ensures UpdateWith(st, topic, rec, asWritten) == Failure(WrongType)
  {
  }

  /** As written, update raises on every record that holds a dict field. */
  lemma UpdateAsWrittenFailsOnDict(st: Store, topic: string, rec: Record, field: string)
    requires field in rec.entries && rec.entries[field].DictValue?
    ensures UpdateAsWritten(st, topic, rec).Failure?
  {
    if EntityIdOf(rec).Success? {
      UpdateFieldsAsWrittenFailOnDict(st, topic, EntityIdOf(rec).value, rec, rec.order, field);
    }
  }

  /** With `hmset(did, v)` the dict branch replaces the nested mapping like the list and set branches. */
  lemma UpdateReplacesDict(st: Store, topic: string, rec: Record, field: string)
    requires EntityIdOf(rec).Success? && Storable(rec)
    requires EntityHashUsable(st, topic, EntityIdOf(rec).value)
    requires field in rec.entries && rec.entries[field].DictValue?
    ensures Update(st, topic, rec).Success?
    ensures CompositeKey(topic, field, EntityIdOf(rec).value) in Update(st, topic, rec).value
    ensures Update(st, topic, rec).value[CompositeKey(topic, field, EntityIdOf(rec).value)] == RHash(rec.entries[field].entries)
  {
    UpdateReplacesComposites(st, topic, rec);
  }
}
